=== FILE: README.md ===
# flower-ten: verified model of the form relays, catalog normalisation and carousels

This project is a Dafny model of the small pieces of real logic in a flower-shop
storefront built with Next.js. It covers:

- the **order relay** (`POST /api/order`). It validates and normalises an order
  payload field by field, checks that the EmailJS configuration is present, and
  builds the two EmailJS send requests: one to the shop and one confirmation to
  the customer.
- the **lead relay** (`POST /api/lead`). It gates on name and phone, renders the
  plain-text notification and the e-mail subject, and picks the channels (Resend
  e-mail, Slack webhook) from the environment. It always answers ok once the gate
  is passed.
- the **catalog reader** (`lib/queries.ts`). It turns the loosely typed
  `categories` field into a list and maps each CMS record to a `Product`.
- the **catalog section**. It sorts categories by `order` with a stable sort,
  filters products by the selected category, and decides which filter chip is
  highlighted.
- the **two carousels**. Their slide index moves by modular arithmetic over
  `n > 0` slides. For each one the model shows which slide is visible and which
  dot is highlighted.

Everything is written as pure functions over immutable datatypes. Network calls are
not performed. A route returns the list of requests it would send, and the answers
of the mail service are a function parameter (`deliver`). Environment variables are
a `map<string, string>`. A variable counts as set when it is present and not empty,
which is JavaScript truthiness for `process.env` values.

Regular expressions are written as predicates over `seq<char>`. `\d` is ASCII
`'0'..'9'`. `\s` and `String.prototype.trim` share one predicate, `JsText.IsSpace`,
which is the ECMAScript WhiteSpace and LineTerminator set. The email pattern
`^[^\s@]+@[^\s@]+\.[^\s@]+$` is modelled twice:

- as the decomposition `A@B.C` that the pattern describes (`MatchesEmailPattern`);
- as a rule stated field by field (`IsValidEmail`).

A lemma proves that the two accept the same strings.

Modules: `Wrappers` (Option, Result), `JsText` (whitespace, trim, digits, decimal
text), `JsArith` (JavaScript `%`), `ProcessEnv`, `OrderRoute`, `LeadRoute`,
`CatalogTypes`, `Queries`, `CatalogSection`, `SlideView`, `HomeHeroSlider`,
`HeroSlider`.

Only the order route rejects a malformed e-mail address or answers 500 for missing
configuration. The lead route has no email check and no configuration gate: with no
channel configured it sends nothing and still answers ok.

## Model

| member | source | states |
|---|---|---|
| `JsText.TrimStart` | app/api/order/route.ts:64 | the result is a suffix of the input. Everything cut off is whitespace, and the result does not start with whitespace |
| `JsText.TrimEnd` | app/api/order/route.ts:64 | the result is a prefix of the input. Everything cut off is whitespace, and the result does not end with whitespace |
| `JsText.Trim` | app/api/order/route.ts:64 | `trim()` returns a contiguous slice of the input with whitespace on both sides removed, and the slice starts and ends with non-whitespace |
| `JsText.BlankIffAllSpace` | app/api/order/route.ts:64-71 | `!v.trim()` holds exactly when every character is whitespace, so whitespace-only fields count as missing |
| `JsText.NatToString` | app/api/order/route.ts:55 | the status code's decimal text is non-empty, all digits and has no leading zero, and reading it back gives the number |
| `OrderRoute.OnlyDigits` | app/api/order/route.ts:22 | the result holds only ASCII digits. Each digit occurs as often as in the input, and no other character occurs |
| `OrderRoute.OnlyDigitsAppend` | app/api/order/route.ts:22 | the digits are kept in input order: normalising a concatenation concatenates the normalised parts |
| `OrderRoute.OnlyDigitsKeepsDigits` | app/api/order/route.ts:22 | a string of digits is returned unchanged |
| `OrderRoute.OnlyDigitsIdempotent` | app/api/order/route.ts:22 | normalising twice is the same as normalising once |
| `OrderRoute.IsValidPhoneJP` | app/api/order/route.ts:23 | `/^\d{10,11}$/` accepts a string of 10 or 11 characters, every one an ASCII digit |
| `OrderRoute.NormalisedPhoneRule` | app/api/order/route.ts:23 | after normalisation the phone passes exactly when it has 10 or 11 digits |
| `OrderRoute.MatchesEmailPattern` | app/api/order/route.ts:24 | the regular expression as a decomposition `A@B.C` of the whole string, with `A`, `B` and `C` non-empty and free of whitespace and `@` |
| `OrderRoute.IsValidEmail` | app/api/order/route.ts:24 | `isValidEmail` as a field rule: no whitespace, exactly one `@` with something before it, and a `.` after the `@` that is neither right after it nor the last character |
| `OrderRoute.EmailRuleMatchesPattern` | app/api/order/route.ts:24 | the regular expression matches exactly the strings with no whitespace, exactly one `@`, a non-empty local part, and a `.` in the domain that is neither its first nor its last character |
| `OrderRoute.ValidEmailExample` | app/api/order/route.ts:24 | `a@b.co` passes the email rule |
| `OrderRoute.InvalidEmailExample` | app/api/order/route.ts:24 | `not-an-email` fails the email rule |
| `OrderRoute.FirstFailure` | app/api/order/route.ts:64-71 | the position it returns is a failing check, and every check before it passes. When it returns none, every check passes |
| `OrderRoute.Validate` | app/api/order/route.ts:64-71 | a rejection carries the message of the first failing check, in the order name, email, phone, catalog_id, recipient_name, recipient_address. An accepted payload has its phone replaced by its digits |
| `OrderRoute.ValidateTail` | app/api/order/route.ts:67-71 | the checks after the email check run on the normalised phone, with the same first-failure rule |
| `OrderRoute.ValidateFirstFailureDecides` | app/api/order/route.ts:64-71 | a payload is accepted exactly when every check passes. A rejection names a failing check before which every check passed |
| `OrderRoute.MessageIdentifiesCheck` | app/api/order/route.ts:26-28 | the 400 detail identifies the check that decided it: that check failed and all earlier checks passed |
| `OrderRoute.WhitespaceOnlyIsMissing` | app/api/order/route.ts:64-69 | a whitespace-only applicant name or catalog id is rejected with the same message as a missing one |
| `OrderRoute.BuildRequest` | app/api/order/route.ts:30-44 | a set private key gives a `Bearer` header and no `user_id`. Otherwise there is no header and `user_id` is the public key, or absent when that key is unset |
| `OrderRoute.ExactlyOneCredential` | app/api/order/route.ts:33-44 | whenever a key is configured, a request carries exactly one of the Authorization header and `user_id` |
| `OrderRoute.Decide` | app/api/order/route.ts:64-83 | a validation failure gives 400 whatever the configuration. A valid payload with SID, admin or confirm template missing gives 500 "EmailJS env is missing". Otherwise there are exactly two sends, admin template first, then confirm, each built by `BuildRequest` from the normalised payload |
| `OrderRoute.SendsCarryNormalisedPayload` | app/api/order/route.ts:67-83 | both sends carry the payload with `applicant_phone` reduced to digits and every other field unchanged, and the configured service id |
| `OrderRoute.FailureDetail` | app/api/order/route.ts:53-55 | a non-ok answer's detail is "EmailJS ", the template id and " failed: ", then the status as decimal text that reads back to the status, a space and the body. A thrown error's detail is its message |
| `OrderRoute.Complete` | app/api/order/route.ts:46-56 | the join succeeds exactly when every send gets a 2xx answer. Otherwise the 500 detail is the failure text of a send that failed |
| `OrderRoute.Handle` | app/api/order/route.ts:59-93 | the route answers ok exactly when validation passes, the configuration is present and every send succeeds. It answers 400 exactly when validation fails |
| `OrderRoute.NoSendBeforeGate` | app/api/order/route.ts:64-77 | a rejected or unconfigured request makes no send, so the answer does not depend on the mail service. A validation failure does not depend on the configuration either |
| `LeadRoute.Notifications` | app/api/lead/route.ts:25-57 | e-mail is posted to the Resend endpoint exactly when RESEND_API_KEY, FROM_EMAIL and TO_EMAIL are set, and it goes first. Slack is sent exactly when the webhook is set, with text "新規申込み\n" followed by the message |
| `LeadRoute.Truthy` | app/api/lead/route.ts:8 | JavaScript truthiness of a field: undefined, null, false, 0 and "" are falsy, every other value is truthy |
| `LeadRoute.RenderOr` | app/api/lead/route.ts:18-22 | `${v ?? fallback}`: the fallback for null or undefined, otherwise the template-literal rendering of the value |
| `LeadRoute.Decide` | app/api/lead/route.ts:8-57 | the request is rejected exactly when name or phone is falsy, with 400 and the required-field message. Otherwise the route relays exactly the notifications that `Notifications` selects from the environment |
| `LeadRoute.Handle` | app/api/lead/route.ts:4-60 | the answer is ok exactly when name and phone are truthy. Otherwise it is the 400 rejection |
| `LeadRoute.RejectedSendsNothing` | app/api/lead/route.ts:8-13 | a rejected request produces no notification |
| `LeadRoute.BestEffort` | app/api/lead/route.ts:26-59 | the answer is the same whatever each channel's outcome |
| `LeadRoute.MessageText` | app/api/lead/route.ts:15-23 | the text opens with the name line and closes with the memo heading, the message (empty when nullish) and a final newline |
| `LeadRoute.Subject` | app/api/lead/route.ts:37 | the subject is the fixed prefix, the name and " 様 / ", then "未指定" when the catalog id is null or undefined and the rendered catalog id otherwise |
| `LeadRoute.AbsentRendersEmpty` | app/api/lead/route.ts:18-22 | each of catalog id, quantity, preferred time and message, when null or undefined, gives the same text as an empty string in that field, whatever the other fields hold |
| `LeadRoute.FalsyButPresentIsRendered` | app/api/lead/route.ts:18-22 | `??` falls back only for nullish values: a present 0, false or "" renders as "0", "false" or "", never as the fallback |
| `LeadRoute.SubjectDefault` | app/api/lead/route.ts:37 | the subject ends in "未指定" when the catalog id is null or undefined. An empty catalog id stays empty |
| `LeadRoute.TextStartsWithNameAndPhone` | app/api/lead/route.ts:15-18 | the text opens with the name and the phone, verbatim and in that order |
| `LeadRoute.PhoneSlot` | app/api/lead/route.ts:17 | whatever string the phone renders to is inserted verbatim right after the "■電話: " heading, and the rest of the text is unchanged |
| `LeadRoute.CatalogIdSlot` | app/api/lead/route.ts:18 | the catalog id's rendering is inserted verbatim right after the "■カタログ番号: " heading, and the rest of the text is unchanged. With `AbsentRendersEmpty`, a null or undefined catalog id leaves that slot empty |
| `LeadRoute.QuantitySlot` | app/api/lead/route.ts:19 | the quantity's rendering is inserted verbatim right after the "■数量: " heading, and the rest of the text is unchanged. A null or undefined quantity leaves the slot empty |
| `LeadRoute.PreferredTimeSlot` | app/api/lead/route.ts:20 | the preferred time's rendering is inserted verbatim right after the "■希望連絡時間: " heading, and the rest of the text is unchanged. A null or undefined value leaves the slot empty |
| `Queries.IsCategoryArray` | lib/queries.ts:13 | `Array.isArray`: true exactly for an array value |
| `Queries.IsCategory` | lib/queries.ts:14-15 | true exactly for a non-null object that has an `id` key |
| `Queries.ToCategoryArray` | lib/queries.ts:13-21 | an array is returned as is, and an object with an `id` key becomes a one-element list. Null, undefined, non-objects and objects without `id` become the empty list |
| `Queries.ToCategoryArrayIdempotent` | lib/queries.ts:17-21 | a normalised list comes back unchanged when normalised again |
| `Queries.ToProduct` | lib/queries.ts:39-48 | the id is `catalogId` when it is non-empty, else the CMS id. The image is never empty: it is the CMS image URL when that is non-empty, else the placeholder. Name, price and description are copied, and the categories are the normalised list |
| `Queries.MapItems` | lib/queries.ts:38-49 | one product per record, same length, same order |
| `Queries.MapCatalog` | lib/queries.ts:38-49 | missing `contents` maps to no products. Otherwise the products follow the records one for one |
| `CatalogSection.Insert` | components/home/CatalogSection.tsx:15 | inserting adds exactly the one element |
| `CatalogSection.InsertSorted` | components/home/CatalogSection.tsx:15 | inserting into a sorted list keeps it sorted by `order ?? 0` |
| `CatalogSection.InsertStable` | components/home/CatalogSection.tsx:15 | the inserted element goes before later elements with an equal key |
| `CatalogSection.SortByKey` | components/home/CatalogSection.tsx:15 | the result is a permutation of the input, non-decreasing in `order ?? 0` |
| `CatalogSection.SortByKeyStable` | components/home/CatalogSection.tsx:15 | for every key, the categories with that key appear in input order, as in the stable `Array.prototype.sort` |
| `CatalogSection.Sorted` | components/home/CatalogSection.tsx:15 | null or undefined categories sort to the empty list. Otherwise the result is a permutation, sorted by `order ?? 0`, and categories with equal keys keep their input order |
| `CatalogSection.ToArr` | components/home/CatalogSection.tsx:16 | an array is returned as is, a category object becomes a singleton, and null or undefined becomes the empty list |
| `CatalogSection.ToArrAgreesWithReader` | components/home/CatalogSection.tsx:16 | on every value of the declared type, the storefront's `toArr` agrees with the reader's `toCategoryArray` |
| `CatalogSection.FilterByCategory` | components/home/CatalogSection.tsx:17 | every kept product has a category with the selected id. Each product with such a category is kept as often as it occurs, and no other product is kept |
| `CatalogSection.FilterByCategoryAppend` | components/home/CatalogSection.tsx:17 | the filter keeps relative order: filtering a concatenation concatenates the filtered parts |
| `CatalogSection.Filtered` | components/home/CatalogSection.tsx:17 | with "all" selected the products are shown unchanged. Otherwise the category filter applies |
| `CatalogSection.CategoryChips` | components/home/CatalogSection.tsx:24-26 | there is one chip per category, labelled with its name. A chip is active exactly when its id is selected, and clicking it selects that id |
| `CatalogSection.Chips` | components/home/CatalogSection.tsx:22-27 | "すべて" comes first and is active exactly when "all" is selected. Then one chip per category follows, in sorted order, each active exactly when its id is the selection |
| `CatalogSection.ClickHighlights` | components/home/CatalogSection.tsx:23-25 | after a chip is clicked, a chip is active exactly when it selects the same value, so the clicked chip is active |
| `CatalogSection.AllChipShowsEverything` | components/home/CatalogSection.tsx:23 | clicking "すべて" shows every product |
| `JsArith.JsRem` | components/home/HeroSlider.tsx:9 | JavaScript `%` agrees with the mathematical remainder on non-negative dividends and is never positive on negative ones |
| `HomeHeroSlider.Go` | components/home/HeroSlider.tsx:9 | for `i >= -n`, `go(i)` selects `i mod n`, which is in `[0, n)` |
| `HomeHeroSlider.Next` | components/home/HeroSlider.tsx:10 | `next` advances by one and wraps the last slide to 0 |
| `HomeHeroSlider.DotSelects` | components/home/HeroSlider.tsx:31 | clicking dot `i` selects slide `i` |
| `HomeHeroSlider.StepKeepsInRange` | components/home/HeroSlider.tsx:9-31 | a timer tick (`next`) and a click on a rendered dot (`go(i)`) keep an in-range index in range |
| `HomeHeroSlider.ReachableInRange` | components/home/HeroSlider.tsx:6 | from the initial 0 the index is always a valid slide |
| `HomeHeroSlider.OneSlideOneDot` | components/home/HeroSlider.tsx:25-31 | in every reachable state exactly one slide is `opacity-100` and exactly one dot is `bg-gray-900`, both at the index |
| `SlideView.Run` | components/HeroSlider.tsx:8-27 | for any step that keeps the index in range, a sequence of ticks and clicks on rendered dots that starts in range ends in range. Both carousels use this run with their own step |
| `SlideView.Marked` | components/HeroSlider.tsx:20 | there is one class per slide, and the marked class appears exactly at the current index |
| `SlideView.ExactlyOneMarked` | components/home/HeroSlider.tsx:25 | with the index in range, exactly one position is marked |
| `HeroSlider.Tick` | components/HeroSlider.tsx:10 | a tick maps `index` to `(index + 1) % n`: it advances by one and wraps `n - 1` to 0 |
| `HeroSlider.TicksAdvance` | components/HeroSlider.tsx:10 | `k` ticks move the index `k` places modulo `n` |
| `HeroSlider.FullRound` | components/HeroSlider.tsx:10 | `n` ticks return the index to where it started |
| `HeroSlider.Step` | components/HeroSlider.tsx:27 | clicking dot `i` sets the index to exactly `i` |
| `HeroSlider.StepKeepsInRange` | components/HeroSlider.tsx:10-27 | an interval tick and a click on a rendered dot (`setIndex(i)`) keep an in-range index in range |
| `HeroSlider.ReachableInRange` | components/HeroSlider.tsx:8 | from the initial 0 the index is always a valid slide |
| `HeroSlider.OneSlideOneDot` | components/HeroSlider.tsx:20-27 | in every reachable state exactly one slide is `opacity-100` and exactly one dot is `bg-white`, both at the index |

## Left out

- Network I/O is not modelled: the EmailJS, Resend and Slack `fetch` calls and the microCMS client. Sends are returned as request values, and their results are the `deliver` parameter.
- OrderRoute.Complete: `Promise.all` rejects with whichever send fails first in time. The model reports the first failing send in list order (admin, then confirm), because timing is not modelled.
- OrderRoute.FailureDetail: a thrown error's detail is `err?.message || String(err)`. The model takes that rendered text as given in `Threw(message)` rather than modelling JavaScript error objects.
- JSON parsing of request bodies is not modelled, and the model types every order field as an optional string. In the source, a `null` order body throws when `applicant_name` is read, so the route answers 500. A body of another non-object type (`5`, `"x"`, `true`, `[]`) has no `applicant_name` and gets the 400 "applicant_name is required". A checked field whose value is neither null, undefined nor a string also throws and answers 500. The checked fields are the name, email, catalog id, recipient name and recipient address, all read through `?.trim()`, and a truthy phone, read through `.replace`. A falsy phone such as `0` or `false` becomes `""` and gets the 400 "applicant_phone invalid". None of these throwing cases is modelled.
- OrderRoute.OrderPayload covers only the twelve declared fields, and `None` stands for both a `null` and an absent field. The source forwards the whole parsed object as `template_params`, including keys outside the declared fields, and `JSON.stringify` keeps a `null` field but drops an absent one. So OrderRoute.SendsCarryNormalisedPayload's "every other field unchanged" covers only the declared fields, and does not distinguish `null` from absent in what is forwarded.
- Unchecked order fields such as `quantity`, `message` and `preferred_time` are forwarded unchanged whatever their JSON type. The model can only represent them as strings or absent, so it does not represent a number or an object forwarded in one of them.
- OrderRoute.Complete and OrderRoute.Handle: the mail service's answers are a function of the request value. When the admin and confirm template ids are equal, the two sends are the same value, so the model gives both the same outcome. In the source the two concurrent sends can fail independently. No property stated here depends on the two outcomes differing.
- Lead field values are limited to undefined, null, booleans, integer numbers and strings. Numbers are the integers of magnitude below 10^21 (`LeadRoute.JsInt`). Non-integer numbers and larger integers are left out, because JavaScript renders them in floating-point or exponent notation. Objects and arrays, which render as "[object Object]" or comma-joined, are left out too.
- Slack's `headers` and the EmailJS `Content-Type` header are constant and not modelled.
- `console.error` logging is not modelled.
- `getCategories` and the Next.js revalidation window are plain fetch wrappers and are not modelled.
- Product fields that the mapping never sets (`images`, `description2`, `rank`) are not modelled. Image width and height are unused and not modelled either.
- CatalogSection.SortKey: a non-numeric `order` is coerced by JavaScript subtraction. The model keeps integer `order` values only; fractional values are left out as floating point.
- HomeHeroSlider.Go and HeroSlider.Tick require at least one slide. With zero slides the source's index becomes NaN and nothing is rendered.
- Timers, `setInterval` lifecycles and visibility handling in both carousels are not modelled. A timer firing is a `Tick` event.
- Page layout, animation, scrolling and price formatting are presentation only and not modelled. This covers the header, intro splash, pricing grid scroll, FAQ, footer and `toLocaleString`.
- The client-side form submission through `emailjs.send` (components/home/OrderSection.tsx) is a network call and is not modelled.

=== FILE: catalogsection.dfy ===
/**
 * The derived state of the catalog section: categories sorted by their `order`
 * key (a stable sort), the products filtered by the selected category, and
 * which filter chip is highlighted.
 */
module CatalogSection {
  import opened Wrappers
  import opened CatalogTypes
  import Queries

  const AllCategories: string := "all"
  const AllLabel: string := "すべて"

  /** `c.order ?? 0`. */
  function SortKey(c: Category): int {
    c.order.GetOr(0)
  }

  ghost predicate SortedByKey(s: seq<Category>) {
    forall i, j :: 0 <= i < j < |s| ==> SortKey(s[i]) <= SortKey(s[j])
  }

  /** The elements of `s` with sort key `k`, in their order in `s`. */
  function WithKey(k: int, s: seq<Category>): seq<Category> {
    if |s| == 0 then []
    else (if SortKey(s[0]) == k then [s[0]] else []) + WithKey(k, s[1..])
  }

  /** Puts `x` in front of the first element whose key is not smaller than its own. */
  function Insert(x: Category, s: seq<Category>): (r: seq<Category>)
    ensures multiset(r) == multiset(s) + multiset{x}
  {
    if |s| == 0 then [x]
    else if SortKey(x) <= SortKey(s[0]) then [x] + s
    else
      assert s == [s[0]] + s[1..];
      [s[0]] + Insert(x, s[1..])
  }

  ghost predicate KeysAtLeast(k: int, s: seq<Category>) {
    forall i :: 0 <= i < |s| ==> k <= SortKey(s[i])
  }

  lemma {:induction false} InsertKeepsBound(k: int, x: Category, s: seq<Category>)
    requires KeysAtLeast(k, s) && k <= SortKey(x)
    ensures KeysAtLeast(k, Insert(x, s))
  {
    if |s| > 0 && SortKey(s[0]) < SortKey(x) {
      InsertKeepsBound(k, x, s[1..]);
    }
  }

  lemma SortedCons(y: Category, rest: seq<Category>)
    requires KeysAtLeast(SortKey(y), rest) && SortedByKey(rest)
    ensures SortedByKey([y] + rest)
  {
    var r := [y] + rest;
    forall i, j | 0 <= i < j < |r|
      ensures SortKey(r[i]) <= SortKey(r[j])
    {
      assert r[j] == rest[j - 1];
      if i > 0 { assert r[i] == rest[i - 1]; }
    }
  }

  lemma {:induction false} InsertSorted(x: Category, s: seq<Category>)
    requires SortedByKey(s)
    ensures SortedByKey(Insert(x, s))
  {
    if |s| == 0 {
    } else if SortKey(x) <= SortKey(s[0]) {
      SortedCons(x, s);
    } else {
      InsertSorted(x, s[1..]);
      InsertKeepsBound(SortKey(s[0]), x, s[1..]);
      SortedCons(s[0], Insert(x, s[1..]));
    }
  }

  /** A stable insertion sort by `SortKey`. */
  function SortByKey(s: seq<Category>): (r: seq<Category>)
    ensures multiset(r) == multiset(s)
    ensures SortedByKey(r)
  {
    if |s| == 0 then []
    else
      assert s == [s[0]] + s[1..];
      var rest := SortByKey(s[1..]);
      InsertSorted(s[0], rest);
      Insert(s[0], rest)
  }

  /** `[...(categories ?? [])].sort((a, b) => (a.order ?? 0) - (b.order ?? 0))`. */
  function Sorted(categories: Option<seq<Category>>): (r: seq<Category>)
    ensures multiset(r) == multiset(categories.GetOr([]))
    ensures SortedByKey(r)
    ensures forall k :: WithKey(k, r) == WithKey(k, categories.GetOr([]))
  {
    var s := categories.GetOr([]);
    assert forall k :: WithKey(k, SortByKey(s)) == WithKey(k, s) by {
      forall k ensures WithKey(k, SortByKey(s)) == WithKey(k, s) {
        SortByKeyStable(k, s);
      }
    }
    SortByKey(s)
  }

  lemma {:induction false} WithKeyAppend(k: int, a: seq<Category>, b: seq<Category>)
    ensures WithKey(k, a + b) == WithKey(k, a) + WithKey(k, b)
  {
    if |a| == 0 {
      assert a + b == b;
    } else {
      assert (a + b)[1..] == a[1..] + b;
      WithKeyAppend(k, a[1..], b);
    }
  }

  lemma {:induction false} InsertStable(k: int, x: Category, s: seq<Category>)
    requires SortedByKey(s)
    ensures WithKey(k, Insert(x, s)) == WithKey(k, [x] + s)
  {
    if |s| > 0 && SortKey(s[0]) < SortKey(x) {
      var y := s[0];
      assert SortedByKey(s[1..]);
      InsertStable(k, x, s[1..]);
      WithKeyAppend(k, [y], Insert(x, s[1..]));
      WithKeyAppend(k, [x], s[1..]);
      WithKeyAppend(k, [y], s[1..]);
      WithKeyAppend(k, [x], s);
      assert s == [y] + s[1..];
      assert [y] + Insert(x, s[1..]) == Insert(x, s);
    }
  }

  /** Stability: among categories with equal keys the input order is kept. */
  lemma {:induction false} SortByKeyStable(k: int, s: seq<Category>)
    ensures WithKey(k, SortByKey(s)) == WithKey(k, s)
  {
    if |s| > 0 {
      SortByKeyStable(k, s[1..]);
      InsertStable(k, s[0], SortByKey(s[1..]));
      WithKeyAppend(k, [s[0]], SortByKey(s[1..]));
      WithKeyAppend(k, [s[0]], s[1..]);
      assert s == [s[0]] + s[1..];
    }
  }

  /** `toArr`: an array as is, a category object as a one-element list, `null` or
      `undefined` as the empty list. */
  function ToArr(v: CategoryField): (r: seq<Category>)
    requires WellTyped(v)
    ensures v.Array? ==> r == v.items
    ensures v.Single? ==> r == [v.c]
    ensures v.Undefined? || v.Null? ==> r == []
  {
    match v
    case Array(items) => items
    case Single(c) => [c]
    case _ => []
  }

  /** The storefront's truthiness-based `toArr` and the reader's key-checking
      `toCategoryArray` agree on every value of the declared type. */
  lemma ToArrAgreesWithReader(v: CategoryField)
    requires WellTyped(v)
    ensures ToArr(v) == Queries.ToCategoryArray(v)
  {
  }

  function FieldOf(categories: Option<seq<Category>>): (v: CategoryField)
    ensures WellTyped(v)
  {
    match categories
    case Some(cs) => Array(cs)
    case None => Undefined
  }

  /** `toArr(p.categories).some((c) => c.id === selectedCat)`. */
  predicate InCategory(p: Product, selected: string) {
    var cs := ToArr(FieldOf(p.categories));
    exists i :: 0 <= i < |cs| && cs[i].id == selected
  }

  function FilterByCategory(selected: string, products: seq<Product>): (r: seq<Product>)
    ensures forall p :: p in r ==> InCategory(p, selected)
    ensures forall p :: multiset(r)[p] == if InCategory(p, selected) then multiset(products)[p] else 0
  {
    if |products| == 0 then []
    else
      assert products == [products[0]] + products[1..];
      (if InCategory(products[0], selected) then [products[0]] else []) + FilterByCategory(selected, products[1..])
  }

  /** The filter keeps the relative order of the products it keeps. */
  lemma {:induction false} FilterByCategoryAppend(selected: string, a: seq<Product>, b: seq<Product>)
    ensures FilterByCategory(selected, a + b) == FilterByCategory(selected, a) + FilterByCategory(selected, b)
  {
    if |a| == 0 {
      assert a + b == b;
    } else {
      assert (a + b)[1..] == a[1..] + b;
      FilterByCategoryAppend(selected, a[1..], b);
    }
  }

  /** The products the grid shows. */
  function Filtered(selected: string, products: seq<Product>): (r: seq<Product>)
    ensures selected == AllCategories ==> r == products
    ensures selected != AllCategories ==> r == FilterByCategory(selected, products)
  {
    if selected == AllCategories then products else FilterByCategory(selected, products)
  }

  /** A filter chip: its label, whether it is highlighted, and the selection a click sets. */
  datatype Chip = Chip(caption: string, active: bool, target: string)

  function CategoryChips(sorted: seq<Category>, selected: string): (chips: seq<Chip>)
    ensures |chips| == |sorted|
    ensures forall i :: 0 <= i < |sorted| ==>
      chips[i] == Chip(sorted[i].name, selected == sorted[i].id, sorted[i].id)
  {
    if |sorted| == 0 then []
    else [Chip(sorted[0].name, selected == sorted[0].id, sorted[0].id)] + CategoryChips(sorted[1..], selected)
  }

  /** The chip row: "すべて" first, then one chip per category in sorted order. */
  function Chips(categories: Option<seq<Category>>, selected: string): (chips: seq<Chip>)
    ensures |chips| == |categories.GetOr([])| + 1
    ensures chips[0] == Chip(AllLabel, selected == AllCategories, AllCategories)
    ensures forall i :: 1 <= i < |chips| ==>
      chips[i].caption == Sorted(categories)[i - 1].name && chips[i].target == Sorted(categories)[i - 1].id
    ensures chips[1..] == CategoryChips(Sorted(categories), selected)
  {
    var sorted := Sorted(categories);
    assert |sorted| == |multiset(sorted)| == |categories.GetOr([])|;
    [Chip(AllLabel, selected == AllCategories, AllCategories)] + CategoryChips(sorted, selected)
  }

  /** Clicking a chip highlights it, and it highlights exactly the chips that set the same selection. */
  lemma ClickHighlights(categories: Option<seq<Category>>, selected: string, k: int)
    requires 0 <= k < |Chips(categories, selected)|
    ensures var chips := Chips(categories, Chips(categories, selected)[k].target);
      forall i :: 0 <= i < |chips| ==> (chips[i].active <==> chips[i].target == chips[k].target)
  {
    var target := Chips(categories, selected)[k].target;
    var chips := Chips(categories, target);
    assert chips[k].target == target;
  }

  /** Clicking "すべて" shows every product. */
  lemma AllChipShowsEverything(categories: Option<seq<Category>>, selected: string, products: seq<Product>)
    ensures Filtered(Chips(categories, selected)[0].target, products) == products
  {
  }
}

=== FILE: catalogtypes.dfy ===
/**
 * The records of the catalog as the content API delivers them and as the
 * storefront consumes them.
 */
module CatalogTypes {
  import opened Wrappers

  /** A product category. `order` is the optional sort key (integer values only). */
  datatype Category = Category(id: string, name: string, order: Option<int>, slug: Option<string>)

  /** What the loosely typed `categories` field of a CMS record can hold at run time. */
  datatype CategoryField =
    | Undefined
    | Null
    | Primitive(truthy: bool)    // a boolean, number or string
    | KeylessObject              // an object without an `id` key
    | Single(c: Category)        // one category object (it has an `id` key)
    | Array(items: seq<Category>)

  /** The shapes the TypeScript type `Category[] | Category | undefined | null` admits. */
  predicate WellTyped(v: CategoryField) {
    v.Undefined? || v.Null? || v.Single? || v.Array?
  }

  datatype ImageAsset = ImageAsset(url: Option<string>)

  /** A product record in the CMS. */
  datatype CatalogItem = CatalogItem(
    id: string,
    catalogId: Option<string>,
    name: string,
    price: int,
    description: Option<string>,
    image: Option<ImageAsset>,
    categories: CategoryField)

  /** A product as the storefront shows it. */
  datatype Product = Product(
    id: string,
    name: string,
    price: int,
    image: string,
    description: Option<string>,
    categories: Option<seq<Category>>)
}

=== FILE: heroslider.dfy ===
/**
 * The stand-alone carousel: an interval moves `index` to `(index + 1) % n`, and
 * each dot sets `index` to its own position. The index starts at 0.
 */
module HeroSlider {
  import opened JsArith
  import opened SlideView

  /** One interval tick. */
  function Tick(n: nat, index: int): (r: int)
    requires n > 0
    ensures 0 <= index < n - 1 ==> r == index + 1
    ensures index == n - 1 ==> r == 0
    ensures 0 <= index ==> r == (index + 1) % n
  {
    JsRem(index + 1, n)
  }

  /** `k` consecutive ticks. */
  function Ticks(n: nat, k: nat, index: int): int
    requires n > 0
  {
    if k == 0 then index else Ticks(n, k - 1, Tick(n, index))
  }

  /** `k` ticks advance the index by `k` positions, modulo `n`. */
  lemma {:induction false} TicksAdvance(n: nat, k: nat, index: int)
    requires n > 0 && 0 <= index < n
    ensures Ticks(n, k, index) == (index + k) % n
  {
    if k == 0 {
      ModUnique(index, n, 0, index);
    } else if index < n - 1 {
      TicksAdvance(n, k - 1, index + 1);
    } else {
      TicksAdvance(n, k - 1, 0);
      AddPeriod(k - 1, n);
    }
  }

  /** A full round of `n` ticks comes back to the starting slide. */
  lemma FullRound(n: nat, index: int)
    requires n > 0 && 0 <= index < n
    ensures Ticks(n, n, index) == index
  {
    TicksAdvance(n, n, index);
    AddPeriod(index, n);
    ModUnique(index, n, 0, index);
  }

  /** A tick is one interval step; a dot click is `setIndex(i)`, the clicked
      position as is. */
  function Step(n: nat, index: int, e: Event): (r: int)
    requires n > 0
    ensures e.DotClick? ==> r == e.i
  {
    match e
    case Tick => Tick(n, index)
    case DotClick(i) => i
  }

  function Stepper(n: nat): (int, Event) -> int
    requires n > 0
  {
    (i, e) => Step(n, i, e)
  }

  /** From an index in range, every tick and every click on a rendered dot
      leaves the index in range. */
  lemma StepKeepsInRange(n: nat)
    requires n > 0
    ensures KeepsInRange(n, Stepper(n))
  {
  }

  /** From the initial index 0 the index is always a valid slide. */
  lemma ReachableInRange(n: nat, events: seq<Event>)
    requires n > 0 && Clickable(n, events)
    ensures 0 <= Run(n, Stepper(n), 0, events) < n
  {
    StepKeepsInRange(n);
  }

  function SlideClasses(n: nat, index: int): seq<string> {
    SlideView.Marked(n, index, "opacity-100", "opacity-0")
  }

  function DotClasses(n: nat, index: int): seq<string> {
    SlideView.Marked(n, index, "bg-white", "bg-white/50")
  }

  /** In every reachable state exactly one slide is opaque and exactly one dot is
      solid white, both at the current index. */
  lemma OneSlideOneDot(n: nat, events: seq<Event>)
    requires n > 0 && Clickable(n, events)
    ensures var index := (StepKeepsInRange(n); Run(n, Stepper(n), 0, events));
      && (set i | 0 <= i < n && SlideClasses(n, index)[i] == "opacity-100") == {index}
      && (set i | 0 <= i < n && DotClasses(n, index)[i] == "bg-white") == {index}
  {
    StepKeepsInRange(n);
    var index := Run(n, Stepper(n), 0, events);
    SlideView.ExactlyOneMarked(n, index, "opacity-100", "opacity-0");
    SlideView.ExactlyOneMarked(n, index, "bg-white", "bg-white/50");
  }
}

=== FILE: homeheroslider.dfy ===
/**
 * The home-page carousel: `go(i)` selects `(i + n) % n`, the timer calls
 * `next`, which is `go(idx + 1)`, and each dot calls `go` with its own
 * position. The index starts at 0.
 */
module HomeHeroSlider {
  import opened JsArith
  import opened SlideView

  /** `go(i)`: `setIdx((i + images.length) % images.length)`. */
  function Go(n: nat, i: int): (r: int)
    requires n > 0
    ensures i + n >= 0 ==> r == i % n && 0 <= r < n
    ensures i + n < 0 ==> r <= 0
  {
    AddPeriod(i, n);
    JsRem(i + n, n)
  }

  /** `next()`: one slide forward, wrapping from the last to the first. */
  function Next(n: nat, idx: int): (r: int)
    requires n > 0
    ensures 0 <= idx < n - 1 ==> r == idx + 1
    ensures idx == n - 1 ==> r == 0
  {
    Go(n, idx + 1)
  }

  /** Clicking a dot selects exactly its slide. */
  lemma DotSelects(n: nat, i: int)
    requires 0 <= i < n
    ensures Go(n, i) == i
  {
  }

  /** A timer tick calls `next`; a dot click calls `go` with the dot's position. */
  function Step(n: nat, idx: int, e: Event): int
    requires n > 0
  {
    match e
    case Tick => Next(n, idx)
    case DotClick(i) => Go(n, i)
  }

  function Stepper(n: nat): (int, Event) -> int
    requires n > 0
  {
    (i, e) => Step(n, i, e)
  }

  /** From an index in range, every tick and every click on a rendered dot
      leaves the index in range. */
  lemma StepKeepsInRange(n: nat)
    requires n > 0
    ensures KeepsInRange(n, Stepper(n))
  {
    forall i, e | 0 <= i < n && OnRenderedDot(n, e)
      ensures 0 <= Stepper(n)(i, e) < n
    {
      if e.DotClick? {
        DotSelects(n, e.i);
      }
    }
  }

  /** From the initial index 0 the index is always a valid slide. */
  lemma ReachableInRange(n: nat, events: seq<Event>)
    requires n > 0 && Clickable(n, events)
    ensures 0 <= Run(n, Stepper(n), 0, events) < n
  {
    StepKeepsInRange(n);
  }

  /** The class of each slide: only the current one is opaque. */
  function SlideClasses(n: nat, idx: int): seq<string> {
    SlideView.Marked(n, idx, "opacity-100", "opacity-0")
  }

  /** The class of each dot: only the current one is dark. */
  function DotClasses(n: nat, idx: int): seq<string> {
    SlideView.Marked(n, idx, "bg-gray-900", "bg-gray-300 hover:bg-gray-400")
  }

  /** In every reachable state exactly one slide is shown and exactly one dot is
      dark, both at the current index. */
  lemma OneSlideOneDot(n: nat, events: seq<Event>)
    requires n > 0 && Clickable(n, events)
    ensures var idx := (StepKeepsInRange(n); Run(n, Stepper(n), 0, events));
      && (set i | 0 <= i < n && SlideClasses(n, idx)[i] == "opacity-100") == {idx}
      && (set i | 0 <= i < n && DotClasses(n, idx)[i] == "bg-gray-900") == {idx}
  {
    StepKeepsInRange(n);
    var idx := Run(n, Stepper(n), 0, events);
    SlideView.ExactlyOneMarked(n, idx, "opacity-100", "opacity-0");
    SlideView.ExactlyOneMarked(n, idx, "bg-gray-900", "bg-gray-300 hover:bg-gray-400");
  }
}

=== FILE: jsarith.dfy ===
/** Integer arithmetic with JavaScript's `%` and the facts about Euclidean
    remainders the carousel proofs need. */
module JsArith {

  /** JavaScript `a % n` on integers: truncated division, so the remainder takes
      the sign of the dividend (Dafny's `%` is Euclidean and never negative). */
  function JsRem(a: int, n: int): (r: int)
    requires n != 0
    ensures a >= 0 ==> 0 <= r && (n > 0 ==> r == a % n)
    ensures a < 0 ==> r <= 0
  {
    var m := if n < 0 then -n else n;
    if a >= 0 then a % m else -((-a) % m)
  }

  lemma {:induction false} MulAtLeast(d: int, n: int)
    requires d >= 1 && n > 0
    ensures d * n >= n
  {
    if d > 1 {
      MulAtLeast(d - 1, n);
      assert d * n == (d - 1) * n + n;
    }
  }

  /** Quotient and remainder are unique. */
  lemma ModUnique(a: int, n: int, q: int, r: int)
    requires n > 0 && 0 <= r < n && a == q * n + r
    ensures a % n == r
  {
    var q', r' := a / n, a % n;
    assert a == q' * n + r';
    assert (q - q') * n == r' - r;
    if q > q' {
      MulAtLeast(q - q', n);
    } else if q < q' {
      MulAtLeast(q' - q, n);
    }
  }

  lemma AddPeriod(m: int, n: int)
    requires n > 0
    ensures (m + n) % n == m % n
  {
    assert m == (m / n) * n + m % n;
    assert m + n == (m / n + 1) * n + m % n;
    ModUnique(m + n, n, m / n + 1, m % n);
  }
}

=== FILE: jstext.dfy ===
/**
 * The few pieces of ECMAScript string semantics the rest of the model relies on:
 * the whitespace class shared by the regular-expression escape `\s` and by
 * `String.prototype.trim`, the ASCII digit class `\d`, `trim()` itself, and the
 * decimal rendering of integers that template literals perform.
 */
module JsText {

  /** The ECMAScript WhiteSpace and LineTerminator code points. This is the set
      `\s` matches and the set `trim()` removes from both ends. */
  predicate IsSpace(c: char) {
    || c == '\t' || c == '\n' || c == '\U{000B}' || c == '\U{000C}' || c == '\r'
    || c == ' ' || c == '\U{00A0}' || c == '\U{1680}'
    || ('\U{2000}' <= c <= '\U{200A}')
    || c == '\U{2028}' || c == '\U{2029}' || c == '\U{202F}' || c == '\U{205F}'
    || c == '\U{3000}' || c == '\U{FEFF}'
  }

  /** `\d` without the `u` flag: the ASCII digits only. */
  predicate IsDigit(c: char) {
    '0' <= c <= '9'
  }

  predicate AllDigits(s: string) {
    forall i :: 0 <= i < |s| ==> IsDigit(s[i])
  }

  predicate AllSpace(s: string) {
    forall i :: 0 <= i < |s| ==> IsSpace(s[i])
  }

  /** Drops the longest all-whitespace prefix. */
  function TrimStart(s: string): (r: string)
    ensures |r| <= |s| && r == s[|s| - |r|..]
    ensures AllSpace(s[..|s| - |r|])
    ensures |r| > 0 ==> !IsSpace(r[0])
  {
    if |s| > 0 && IsSpace(s[0]) then TrimStart(s[1..]) else s
  }

  /** Drops the longest all-whitespace suffix. */
  function TrimEnd(s: string): (r: string)
    ensures |r| <= |s| && r == s[..|r|]
    ensures AllSpace(s[|r|..])
    ensures |r| > 0 ==> !IsSpace(r[|r| - 1])
  {
    if |s| > 0 && IsSpace(s[|s| - 1]) then TrimEnd(s[..|s| - 1]) else s
  }

  /** `r` is `s` with the all-whitespace prefix `s[..a]` and an all-whitespace suffix cut off. */
  predicate TrimmedAt(s: string, r: string, a: int) {
    && 0 <= a <= |s| - |r|
    && r == s[a..a + |r|]
    && AllSpace(s[..a])
    && AllSpace(s[a + |r|..])
  }

  /** `String.prototype.trim`: the input with whitespace removed from both ends. */
  function Trim(s: string): (r: string)
    ensures exists a :: TrimmedAt(s, r, a)
    ensures |r| > 0 ==> !IsSpace(r[0]) && !IsSpace(r[|r| - 1])
  {
    var t := TrimStart(s);
    var r := TrimEnd(t);
    assert s[|s| - |t|..][..|r|] == s[|s| - |t|..|s| - |t| + |r|];
    assert s[|s| - |t| + |r|..] == t[|r|..];
    assert TrimmedAt(s, r, |s| - |t|);
    r
  }

  /** JavaScript's `!s.trim()`: the string is empty or whitespace only. */
  predicate Blank(s: string) {
    Trim(s) == ""
  }

  /** A string trims to the empty string exactly when every character is whitespace. */
  lemma BlankIffAllSpace(s: string)
    ensures Blank(s) <==> AllSpace(s)
  {
    var r := Trim(s);
    var a :| TrimmedAt(s, r, a);
    if r == "" {
      forall i | 0 <= i < |s|
        ensures IsSpace(s[i])
      {
        if i < a {
          assert s[..a][i] == s[i];
        } else {
          assert s[a..][i - a] == s[i];
        }
      }
    } else {
      assert r[0] == s[a];
      assert !AllSpace(s);
    }
  }

  function DigitChar(d: nat): (c: char)
    requires d < 10
    ensures IsDigit(c)
  {
    "0123456789"[d]
  }

  function DigitValue(c: char): nat
    requires IsDigit(c)
  {
    (c as int - '0' as int) as nat
  }

  /** The number a string of decimal digits denotes. */
  function DecimalValue(s: string): nat
    requires AllDigits(s)
  {
    if |s| == 0 then 0 else DecimalValue(s[..|s| - 1]) * 10 + DigitValue(s[|s| - 1])
  }

  /** The decimal text of a natural number, as `${n}` renders it: no leading zero,
      and reading the digits back gives `n`. */
  function NatToString(n: nat): (r: string)
    ensures |r| > 0 && AllDigits(r)
    ensures r[0] == '0' ==> r == "0"
    ensures DecimalValue(r) == n
  {
    if n < 10 then
      assert DigitValue(DigitChar(n)) == n;
      [DigitChar(n)]
    else
      var front := NatToString(n / 10);
      var r := front + [DigitChar(n % 10)];
      assert r[..|r| - 1] == front;
      assert DigitValue(DigitChar(n % 10)) == n % 10;
      r
  }

  /** The decimal text of an integer-valued JavaScript number. */
  function IntToString(i: int): string {
    if i < 0 then "-" + NatToString(-i) else NatToString(i)
  }
}

=== FILE: leadroute.dfy ===
/**
 * The lead relay endpoint (`POST /api/lead`): a required-field gate, a plain-text
 * message built from the form fields, and best-effort notification through Resend
 * e-mail and a Slack webhook, each fired only when its configuration is present.
 */
module LeadRoute {
  import opened Wrappers
  import opened JsText
  import opened ProcessEnv

  const ResendUrl: string := "https://api.resend.com/emails"
  const ResendKeyKey: string := "RESEND_API_KEY"
  const FromEmailKey: string := "FROM_EMAIL"
  const ToEmailKey: string := "TO_EMAIL"
  const SlackWebhookKey: string := "SLACK_WEBHOOK_URL"

  const MissingFields: string := "必須項目が未入力です"
  const NoCatalog: string := "未指定"

  /** The integers below 10^21 in magnitude: the numbers JavaScript renders in
      plain decimal notation. */
  type JsInt = n: int | -1_000_000_000_000_000_000_000 < n < 1_000_000_000_000_000_000_000

  /** A JSON field as the route sees it after destructuring; `Undefined` is an absent key. */
  datatype Value =
    | Undefined
    | Null
    | Bool(b: bool)
    | Number(n: JsInt)
    | Text(s: string)

  /** JavaScript truthiness. */
  predicate Truthy(v: Value) {
    match v
    case Undefined => false
    case Null => false
    case Bool(b) => b
    case Number(n) => n != 0
    case Text(s) => s != ""
  }

  predicate Nullish(v: Value) {
    v.Undefined? || v.Null?
  }

  /** `${v}`: the text a template literal substitutes for `v`. */
  function Render(v: Value): string {
    match v
    case Undefined => "undefined"
    case Null => "null"
    case Bool(b) => if b then "true" else "false"
    case Number(n) => IntToString(n)
    case Text(s) => s
  }

  /** `${v ?? fallback}`. */
  function RenderOr(v: Value, fallback: string): string {
    if Nullish(v) then fallback else Render(v)
  }

  /** The destructured fields of the request body. */
  datatype LeadForm = LeadForm(
    name: Value,
    phone: Value,
    catalogId: Value,
    quantity: Value,
    preferredTime: Value,
    message: Value)

  /** `data || {}`: a body that is `null` (or has none of the fields) reads as all-undefined. */
  function FieldsOf(data: Option<LeadForm>): LeadForm {
    match data
    case Some(form) => form
    case None => LeadForm(Undefined, Undefined, Undefined, Undefined, Undefined, Undefined)
  }

  /** The notification text the route builds: the name line first, the memo last. */
  function MessageText(f: LeadForm): (r: string)
    ensures var head := "\n■お名前: " + Render(f.name) + "\n";
      |head| <= |r| && r[..|head|] == head
    ensures var tail := "\n■メモ:\n" + RenderOr(f.message, "") + "\n";
      |tail| <= |r| && r[|r| - |tail|..] == tail
  {
    Template(Render(f.name), Render(f.phone), RenderOr(f.catalogId, ""), RenderOr(f.quantity, ""),
      RenderOr(f.preferredTime, ""), RenderOr(f.message, ""))
  }

  /** The template literal with each substitution already rendered, one line
      (a heading and its value) at a time. */
  function Template(name: string, phone: string, catalogId: string, quantity: string,
                    preferredTime: string, message: string): string
  {
    ("\n■お名前: " + name)
    + ("\n■電話: " + phone)
    + ("\n■カタログ番号: " + catalogId)
    + ("\n■数量: " + quantity)
    + ("\n■希望連絡時間: " + preferredTime)
    + ("\n■メモ:\n" + message)
    + "\n"
  }

  /** `filled` is `base` with `q` inserted right after an occurrence of `heading`. */
  predicate FilledAfter(heading: string, base: string, q: string, filled: string) {
    exists i :: |heading| <= i <= |base| && base[i - |heading|..i] == heading && filled == base[..i] + q + base[i..]
  }

  lemma InsertAfterHeading(pre: string, heading: string, q: string, post: string)
    requires |heading| <= |pre| && pre[|pre| - |heading|..] == heading
    ensures FilledAfter(heading, pre + post, q, pre + q + post)
  {
    var base := pre + post;
    var i := |pre|;
    assert base[..i] == pre;
    assert base[i..] == post;
    assert base[i - |heading|..i] == pre[|pre| - |heading|..];
  }

  /** Appending the lines after a field to `x` one at a time is appending them all at once. */
  lemma AppendThree(x: string, a: string, b: string, c: string)
    ensures x + a + b + c == x + (a + b + c)
  {
  }

  lemma AppendFour(x: string, a: string, b: string, c: string, d: string)
    ensures x + a + b + c + d == x + (a + b + c + d)
  {
  }

  lemma AppendFive(x: string, a: string, b: string, c: string, d: string, e: string)
    ensures x + a + b + c + d + e == x + (a + b + c + d + e)
  {
  }

  /** The phone is written verbatim right after its heading. */
  lemma PhoneSlot(f: LeadForm, q: string)
    ensures FilledAfter("\n■電話: ", MessageText(f.(phone := Text(""))), q, MessageText(f.(phone := Text(q))))
  {
    var heading := "\n■電話: ";
    var pre := "\n■お名前: " + Render(f.name) + heading;
    var c, qt, t, m := RenderOr(f.catalogId, ""), RenderOr(f.quantity, ""), RenderOr(f.preferredTime, ""), RenderOr(f.message, "");
    var rest := ("\n■カタログ番号: " + c) + ("\n■数量: " + qt) + ("\n■希望連絡時間: " + t) + ("\n■メモ:\n" + m) + "\n";
    var n := "\n■お名前: " + Render(f.name);
    assert n + (heading + q) == pre + q;
    assert n + (heading + "") == pre;
    AppendFive(pre + q, "\n■カタログ番号: " + c, "\n■数量: " + qt, "\n■希望連絡時間: " + t, "\n■メモ:\n" + m, "\n");
    AppendFive(pre, "\n■カタログ番号: " + c, "\n■数量: " + qt, "\n■希望連絡時間: " + t, "\n■メモ:\n" + m, "\n");
    assert MessageText(f.(phone := Text(q))) == pre + q + rest;
    assert MessageText(f.(phone := Text(""))) == pre + rest;
    InsertAfterHeading(pre, heading, q, rest);
  }

  /** The catalog id is written right after its heading: its rendering when
      present, nothing when `null` or `undefined`. */
  lemma CatalogIdSlot(f: LeadForm, q: string)
    ensures FilledAfter("\n■カタログ番号: ", MessageText(f.(catalogId := Text(""))), q, MessageText(f.(catalogId := Text(q))))
    ensures !Nullish(f.catalogId) ==> MessageText(f) == MessageText(f.(catalogId := Text(Render(f.catalogId))))
  {
    var heading := "\n■カタログ番号: ";
    var np := ("\n■お名前: " + Render(f.name)) + ("\n■電話: " + Render(f.phone));
    var pre := np + heading;
    var qt, t, m := RenderOr(f.quantity, ""), RenderOr(f.preferredTime, ""), RenderOr(f.message, "");
    var rest := ("\n■数量: " + qt) + ("\n■希望連絡時間: " + t) + ("\n■メモ:\n" + m) + "\n";
    assert np + (heading + q) == pre + q;
    assert np + (heading + "") == pre;
    AppendFour(pre + q, "\n■数量: " + qt, "\n■希望連絡時間: " + t, "\n■メモ:\n" + m, "\n");
    AppendFour(pre, "\n■数量: " + qt, "\n■希望連絡時間: " + t, "\n■メモ:\n" + m, "\n");
    assert MessageText(f.(catalogId := Text(q))) == pre + q + rest;
    assert MessageText(f.(catalogId := Text(""))) == pre + rest;
    InsertAfterHeading(pre, heading, q, rest);
  }

  /** The quantity is written right after its heading: its rendering when
      present, nothing when `null` or `undefined`. */
  lemma QuantitySlot(f: LeadForm, q: string)
    ensures FilledAfter("\n■数量: ", MessageText(f.(quantity := Text(""))), q, MessageText(f.(quantity := Text(q))))
    ensures !Nullish(f.quantity) ==> MessageText(f) == MessageText(f.(quantity := Text(Render(f.quantity))))
  {
    var heading := "\n■数量: ";
    var npc := ("\n■お名前: " + Render(f.name)) + ("\n■電話: " + Render(f.phone))
      + ("\n■カタログ番号: " + RenderOr(f.catalogId, ""));
    var pre := npc + heading;
    var t, m := RenderOr(f.preferredTime, ""), RenderOr(f.message, "");
    var rest := ("\n■希望連絡時間: " + t) + ("\n■メモ:\n" + m) + "\n";
    assert npc + (heading + q) == pre + q;
    assert npc + (heading + "") == pre;
    AppendThree(pre + q, "\n■希望連絡時間: " + t, "\n■メモ:\n" + m, "\n");
    AppendThree(pre, "\n■希望連絡時間: " + t, "\n■メモ:\n" + m, "\n");
    assert MessageText(f.(quantity := Text(q))) == pre + q + rest;
    assert MessageText(f.(quantity := Text(""))) == pre + rest;
    InsertAfterHeading(pre, heading, q, rest);
  }

  /** The preferred contact time is written right after its heading: its
      rendering when present, nothing when `null` or `undefined`. */
  lemma PreferredTimeSlot(f: LeadForm, q: string)
    ensures FilledAfter("\n■希望連絡時間: ", MessageText(f.(preferredTime := Text(""))), q, MessageText(f.(preferredTime := Text(q))))
    ensures !Nullish(f.preferredTime) ==> MessageText(f) == MessageText(f.(preferredTime := Text(Render(f.preferredTime))))
  {
  }

  /** The e-mail subject: the catalog id, or "未指定" when it is `null`/`undefined`. */
  function Subject(f: LeadForm): (r: string)
    ensures var head := "【新規申込み】" + Render(f.name) + " 様 / ";
      && |head| <= |r| && r[..|head|] == head
      && (Nullish(f.catalogId) ==> r[|head|..] == NoCatalog)
      && (!Nullish(f.catalogId) ==> r[|head|..] == Render(f.catalogId))
  {
    "【新規申込み】" + Render(f.name) + " 様 / " + RenderOr(f.catalogId, NoCatalog)
  }

  /** An outbound notification. */
  datatype Notification =
    | ResendEmail(url: string, authorization: string, from: string, to: string, subject: string, text: string)
    | SlackPost(url: string, text: string)

  predicate EmailConfigured(env: Env) {
    IsSet(env, ResendKeyKey) && IsSet(env, FromEmailKey) && IsSet(env, ToEmailKey)
  }

  predicate SlackConfigured(env: Env) {
    IsSet(env, SlackWebhookKey)
  }

  function EmailOf(f: LeadForm, env: Env): Notification
    requires EmailConfigured(env)
  {
    ResendEmail(ResendUrl, "Bearer " + env[ResendKeyKey], env[FromEmailKey], env[ToEmailKey], Subject(f), MessageText(f))
  }

  function SlackOf(f: LeadForm, env: Env): Notification
    requires SlackConfigured(env)
  {
    SlackPost(env[SlackWebhookKey], "新規申込み\n" + MessageText(f))
  }

  /** The notifications the route sends, e-mail first, each exactly when configured. */
  function Notifications(f: LeadForm, env: Env): (ns: seq<Notification>)
    ensures |ns| == (if EmailConfigured(env) then 1 else 0) + (if SlackConfigured(env) then 1 else 0)
    ensures EmailConfigured(env) <==> |ns| > 0 && ns[0].ResendEmail?
    ensures SlackConfigured(env) <==> |ns| > 0 && ns[|ns| - 1].SlackPost?
    ensures forall n :: n in ns && n.ResendEmail? ==>
      && n.url == ResendUrl
      && n.authorization == "Bearer " + env[ResendKeyKey]
      && n.from == env[FromEmailKey] && n.to == env[ToEmailKey]
      && n.subject == Subject(f) && n.text == MessageText(f)
    ensures forall n :: n in ns && n.SlackPost? ==>
      n.url == env[SlackWebhookKey] && n.text == "新規申込み\n" + MessageText(f)
  {
    if EmailConfigured(env) && SlackConfigured(env) then [EmailOf(f, env), SlackOf(f, env)]
    else if EmailConfigured(env) then [EmailOf(f, env)]
    else if SlackConfigured(env) then [SlackOf(f, env)]
    else []
  }

  /** The JSON answer of the route. */
  datatype LeadResponse =
    | Accepted
    | Rejected(status: nat, error: string)

  /** What the route does before any network call. */
  datatype Decision =
    | Reject(response: LeadResponse)
    | Relay(notifications: seq<Notification>)

  function Decide(data: Option<LeadForm>, env: Env): (d: Decision)
    ensures d.Reject? <==> !Truthy(FieldsOf(data).name) || !Truthy(FieldsOf(data).phone)
    ensures d.Reject? ==> d.response == Rejected(400, MissingFields)
    ensures d.Relay? ==> d.notifications == Notifications(FieldsOf(data), env)
  {
    var f := FieldsOf(data);
    if !Truthy(f.name) || !Truthy(f.phone) then Reject(Rejected(400, MissingFields))
    else Relay(Notifications(f, env))
  }

  /** The whole route. Failures of the notification calls are caught and logged,
      so `deliver` (whether each call succeeded) never reaches the answer. */
  function Handle(data: Option<LeadForm>, env: Env, deliver: Notification -> bool): (r: LeadResponse)
    ensures r == Accepted <==> Truthy(FieldsOf(data).name) && Truthy(FieldsOf(data).phone)
    ensures r != Accepted ==> r == Rejected(400, MissingFields)
  {
    match Decide(data, env)
    case Reject(resp) => resp
    case Relay(ns) => Accepted
  }

  /** A rejected request makes no outbound call. */
  lemma RejectedSendsNothing(data: Option<LeadForm>, env: Env)
    requires !Truthy(FieldsOf(data).name) || !Truthy(FieldsOf(data).phone)
    ensures Decide(data, env) == Reject(Rejected(400, MissingFields))
  {
  }

  /** Past the gate the answer is the same whatever each channel did. */
  lemma BestEffort(data: Option<LeadForm>, env: Env, deliver: Notification -> bool, deliver': Notification -> bool)
    ensures Handle(data, env, deliver) == Handle(data, env, deliver')
  {
  }

  /** A `null` or `undefined` optional field renders as the empty string: the
      text is the same as with an explicit "" in that field, whatever the other
      fields hold. */
  lemma AbsentRendersEmpty(f: LeadForm)
    ensures Nullish(f.catalogId) ==> MessageText(f) == MessageText(f.(catalogId := Text("")))
    ensures Nullish(f.quantity) ==> MessageText(f) == MessageText(f.(quantity := Text("")))
    ensures Nullish(f.preferredTime) ==> MessageText(f) == MessageText(f.(preferredTime := Text("")))
    ensures Nullish(f.message) ==> MessageText(f) == MessageText(f.(message := Text("")))
  {
  }

  /** `??` falls back only for `null`/`undefined`: a present falsy value (0,
      false or "") is rendered as itself, never replaced by the fallback and never
      shown as "undefined" or "null". */
  lemma FalsyButPresentIsRendered(v: Value, fallback: string)
    requires !Nullish(v) && !Truthy(v)
    ensures RenderOr(v, fallback) == (if v.Number? then "0" else if v.Bool? then "false" else "")
  {
  }

  /** The subject falls back to "未指定" only for `null`/`undefined`; an empty
      catalog id stays empty. */
  lemma SubjectDefault(f: LeadForm)
    ensures Nullish(f.catalogId) ==> Subject(f) == "【新規申込み】" + Render(f.name) + " 様 / 未指定"
    ensures f.catalogId == Text("") ==> Subject(f) == "【新規申込み】" + Render(f.name) + " 様 / "
  {
  }

  /** Name and phone appear verbatim in the text, in that order, at the start. */
  lemma TextStartsWithNameAndPhone(f: LeadForm, name: string, phone: string)
    requires f.name == Text(name) && f.phone == Text(phone)
    ensures var prefix := "\n■お名前: " + name + "\n■電話: " + phone + "\n■カタログ番号: ";
      |prefix| <= |MessageText(f)| && MessageText(f)[..|prefix|] == prefix
  {
  }
}

=== FILE: orderroute.dfy ===
/**
 * The order relay endpoint (`POST /api/order`): server-side validation and
 * normalisation of an order payload, the configuration gate, and the two
 * EmailJS send requests (one to the shop, one acknowledgement to the customer).
 * Sends are returned as request values; what the mail service answers is the
 * `deliver` parameter of `Handle`.
 */
module OrderRoute {
  import opened Wrappers
  import opened JsText
  import opened ProcessEnv

  const EmailJsUrl: string := "https://api.emailjs.com/api/v1.0/email/send"

  const ServiceIdKey: string := "EMAILJS_SERVICE_ID"
  const AdminTemplateKey: string := "EMAILJS_TEMPLATE_ID_ADMIN"
  const ConfirmTemplateKey: string := "EMAILJS_TEMPLATE_ID_CONFIRM"
  const PrivateKeyKey: string := "EMAILJS_PRIVATE_KEY"
  const PublicKeyKey: string := "EMAILJS_PUBLIC_KEY"

  const EnvMissing: string := "EmailJS env is missing"

  /** The JSON body of an order; None stands for a field that is absent or `null`. */
  datatype OrderPayload = OrderPayload(
    applicantName: Option<string>,
    applicantAddress: Option<string>,
    applicantPhone: Option<string>,
    applicantEmail: Option<string>,
    catalogId: Option<string>,
    catalogName: Option<string>,
    quantity: Option<string>,
    preferredTime: Option<string>,
    message: Option<string>,
    recipientName: Option<string>,
    recipientAddress: Option<string>,
    recipientPhone: Option<string>)

  /** The JSON answer of the endpoint. */
  datatype OrderResponse =
    | OrderOk
    | OrderError(status: nat, error: string, detail: string)

  function BadRequest(detail: string): OrderResponse {
    OrderError(400, "bad_request", detail)
  }

  function SendFailed(detail: string): OrderResponse {
    OrderError(500, "send_failed", detail)
  }

  // ---------------------------------------------------------------------------
  // Field rules
  // ---------------------------------------------------------------------------

  /** `v.replace(/\D/g, "")`: the ASCII digits of `v`, in order. */
  function OnlyDigits(v: string): (r: string)
    ensures AllDigits(r)
    ensures |r| <= |v|
    ensures forall c :: multiset(r)[c] == if IsDigit(c) then multiset(v)[c] else 0
  {
    if |v| == 0 then ""
    else
      assert v == [v[0]] + v[1..];
      (if IsDigit(v[0]) then [v[0]] else "") + OnlyDigits(v[1..])
  }

  /** Order is kept: the digits of a concatenation are the digits of each part, concatenated. */
  lemma {:induction false} OnlyDigitsAppend(a: string, b: string)
    ensures OnlyDigits(a + b) == OnlyDigits(a) + OnlyDigits(b)
  {
    if |a| == 0 {
      assert a + b == b;
    } else {
      assert (a + b)[1..] == a[1..] + b;
      OnlyDigitsAppend(a[1..], b);
    }
  }

  /** A string of digits is left alone. */
  lemma {:induction false} OnlyDigitsKeepsDigits(v: string)
    requires AllDigits(v)
    ensures OnlyDigits(v) == v
  {
    if |v| > 0 {
      OnlyDigitsKeepsDigits(v[1..]);
      assert v == [v[0]] + v[1..];
    }
  }

  /** Normalising twice is normalising once. */
  lemma OnlyDigitsIdempotent(v: string)
    ensures OnlyDigits(OnlyDigits(v)) == OnlyDigits(v)
  {
    OnlyDigitsKeepsDigits(OnlyDigits(v));
  }

  /** `/^\d{10,11}$/`: ten or eleven ASCII digits and nothing else. */
  predicate IsValidPhoneJP(v: string) {
    10 <= |v| <= 11 && AllDigits(v)
  }

  /** After normalisation only the number of digits in the input decides the phone rule. */
  lemma NormalisedPhoneRule(v: string)
    ensures IsValidPhoneJP(OnlyDigits(v)) <==> 10 <= |OnlyDigits(v)| <= 11
  {
  }

  /** A non-empty run of characters from `[^\s@]`. */
  predicate Plain(x: string) {
    |x| > 0 && forall k :: 0 <= k < |x| ==> !IsSpace(x[k]) && x[k] != '@'
  }

  /** The regular expression `/^[^\s@]+@[^\s@]+\.[^\s@]+$/` as a decomposition
      `v == A + "@" + B + "." + C` with `A`, `B`, `C` all `Plain`. */
  ghost predicate MatchesEmailPattern(v: string) {
    exists a, d :: 0 <= a < d < |v| && EmailSplit(v, a, d)
  }

  ghost predicate EmailSplit(v: string, a: int, d: int)
    requires 0 <= a < d < |v|
  {
    Plain(v[..a]) && v[a] == '@' && Plain(v[a + 1..d]) && v[d] == '.' && Plain(v[d + 1..])
  }

  predicate NoSpace(v: string) {
    forall k :: 0 <= k < |v| ==> !IsSpace(v[k])
  }

  /** The email rule stated field by field: no whitespace, exactly one `@`, a
      non-empty local part, and a `.` in the domain that is neither its first
      nor its last character. */
  predicate IsValidEmail(v: string) {
    && NoSpace(v)
    && multiset(v)['@'] == 1
    && exists a, d :: 0 < a < d < |v| - 1 && v[a] == '@' && a + 1 < d && v[d] == '.'
  }

  lemma TwoOccurrences(s: string, c: char, i: int, j: int)
    requires 0 <= i < j < |s| && s[i] == c && s[j] == c
    ensures multiset(s)[c] >= 2
  {
    assert s == s[..i] + [s[i]] + s[i + 1..j] + [s[j]] + s[j + 1..];
  }

  lemma NoOccurrence(x: string, c: char)
    requires forall k :: 0 <= k < |x| ==> x[k] != c
    ensures multiset(x)[c] == 0
  {
    assert c !in x;
  }

  /** With exactly one `@`, no other position holds one. */
  lemma OnlyAt(v: string, a: int)
    requires 0 <= a < |v| && v[a] == '@' && multiset(v)['@'] == 1
    ensures forall k :: 0 <= k < |v| && k != a ==> v[k] != '@'
  {
    forall k | 0 <= k < |v| && k != a
      ensures v[k] != '@'
    {
      if v[k] == '@' {
        if k < a { TwoOccurrences(v, '@', k, a); } else { TwoOccurrences(v, '@', a, k); }
      }
    }
  }

  /** A slice of a string without whitespace and with no `@` outside position `a`. */
  lemma PlainSlice(v: string, a: int, lo: int, hi: int)
    requires 0 <= lo < hi <= |v| && (a < lo || hi <= a)
    requires NoSpace(v) && forall k :: 0 <= k < |v| && k != a ==> v[k] != '@'
    ensures Plain(v[lo..hi])
  {
    forall k | 0 <= k < hi - lo
      ensures !IsSpace(v[lo..hi][k]) && v[lo..hi][k] != '@'
    {
      assert v[lo..hi][k] == v[lo + k];
    }
  }

  lemma EmailRuleImpliesPattern(v: string)
    requires IsValidEmail(v)
    ensures MatchesEmailPattern(v)
  {
    var a, d :| 0 < a < d < |v| - 1 && v[a] == '@' && a + 1 < d && v[d] == '.';
    OnlyAt(v, a);
    PlainSlice(v, a, 0, a);
    PlainSlice(v, a, a + 1, d);
    PlainSlice(v, a, d + 1, |v|);
    assert v[..a] == v[0..a];
    assert v[d + 1..] == v[d + 1..|v|];
    assert EmailSplit(v, a, d);
  }

  lemma PatternHasNoSpace(v: string, a: int, d: int)
    requires 0 <= a < d < |v| && EmailSplit(v, a, d)
    ensures NoSpace(v)
  {
    forall k | 0 <= k < |v|
      ensures !IsSpace(v[k])
    {
      if k < a { assert v[k] == v[..a][k]; }
      else if a < k < d { assert v[k] == v[a + 1..d][k - a - 1]; }
      else if d < k { assert v[k] == v[d + 1..][k - d - 1]; }
    }
  }

  lemma PatternHasOneAt(v: string, a: int, d: int)
    requires 0 <= a < d < |v| && EmailSplit(v, a, d)
    ensures multiset(v)['@'] == 1
  {
    var x, y, z := v[..a], v[a + 1..d], v[d + 1..];
    NoOccurrence(x, '@');
    NoOccurrence(y, '@');
    NoOccurrence(z, '@');
    var m1 := multiset(x + [v[a]]);
    assert m1['@'] == 1;
    var m2 := multiset(x + [v[a]] + y);
    assert m2['@'] == 1;
    var m3 := multiset(x + [v[a]] + y + [v[d]]);
    assert m3['@'] == 1;
    assert v == x + [v[a]] + y + [v[d]] + z;
  }

  lemma PatternImpliesEmailRule(v: string)
    requires MatchesEmailPattern(v)
    ensures IsValidEmail(v)
  {
    var a, d :| 0 <= a < d < |v| && EmailSplit(v, a, d);
    PatternHasNoSpace(v, a, d);
    PatternHasOneAt(v, a, d);
  }

  /** The field-by-field rule accepts exactly the strings the regular expression matches. */
  lemma EmailRuleMatchesPattern(v: string)
    ensures IsValidEmail(v) <==> MatchesEmailPattern(v)
  {
    if IsValidEmail(v) { EmailRuleImpliesPattern(v); }
    if MatchesEmailPattern(v) { PatternImpliesEmailRule(v); }
  }

  /** `a@b.co` passes, `not-an-email` does not. */
  lemma ValidEmailExample()
    ensures IsValidEmail("a@b.co")
  {
    var v := "a@b.co";
    assert v[1] == '@' && v[3] == '.';
    assert multiset(v)['@'] == 1;
  }

  lemma InvalidEmailExample()
    ensures !IsValidEmail("not-an-email")
  {
    var w := "not-an-email";
    assert '@' !in w;
  }

  // ---------------------------------------------------------------------------
  // Validation
  // ---------------------------------------------------------------------------

  /** `!!v?.trim()`: present, and not empty or whitespace only. */
  predicate Present(v: Option<string>) {
    v.Some? && !Blank(v.value)
  }

  /** The applicant phone as the route rewrites it before checking it. */
  function NormalisedPhone(p: OrderPayload): string {
    OnlyDigits(p.applicantPhone.GetOr(""))
  }

  /** The checks the route runs, in the order it runs them. */
  datatype Check =
    | NameRequired
    | EmailValid
    | PhoneValid
    | CatalogRequired
    | RecipientNameRequired
    | RecipientAddressRequired

  const Checks: seq<Check> :=
    [NameRequired, EmailValid, PhoneValid, CatalogRequired, RecipientNameRequired, RecipientAddressRequired]

  /** The 400 `detail` of a failed check. */
  function Message(c: Check): string {
    match c
    case NameRequired => "applicant_name is required"
    case EmailValid => "applicant_email invalid"
    case PhoneValid => "applicant_phone invalid"
    case CatalogRequired => "catalog_id is required"
    case RecipientNameRequired => "recipient_name is required"
    case RecipientAddressRequired => "recipient_address is required"
  }

  predicate Passes(p: OrderPayload, c: Check) {
    match c
    case NameRequired => Present(p.applicantName)
    case EmailValid => Present(p.applicantEmail) && IsValidEmail(p.applicantEmail.value)
    case PhoneValid => IsValidPhoneJP(NormalisedPhone(p))
    case CatalogRequired => Present(p.catalogId)
    case RecipientNameRequired => Present(p.recipientName)
    case RecipientAddressRequired => Present(p.recipientAddress)
  }

  /** Position of the first check at or after `i` that `p` fails, if any. */
  function FirstFailure(p: OrderPayload, i: nat): (r: Option<nat>)
    requires i <= |Checks|
    ensures r.Some? ==>
      && i <= r.value < |Checks| && !Passes(p, Checks[r.value])
      && forall j :: i <= j < r.value ==> Passes(p, Checks[j])
    ensures r.None? ==> forall j :: i <= j < |Checks| ==> Passes(p, Checks[j])
    decreases |Checks| - i
  {
    if i == |Checks| then None
    else if !Passes(p, Checks[i]) then Some(i)
    else FirstFailure(p, i + 1)
  }

  /** The validation block of the route: the first failing check decides the
      message; on success the payload comes back with its phone normalised and
      every other field untouched. */
  function Validate(p: OrderPayload): (r: Result<OrderPayload, string>)
    ensures r.Success? <==> FirstFailure(p, 0).None?
    ensures r.Failure? ==> FirstFailure(p, 0).Some? && r.error == Message(Checks[FirstFailure(p, 0).value])
    ensures r.Success? ==> r.value == p.(applicantPhone := Some(NormalisedPhone(p)))
  {
    if !Present(p.applicantName) then
      assert !Passes(p, Checks[0]);
      Failure("applicant_name is required")
    else
      assert Passes(p, Checks[0]);
      assert FirstFailure(p, 0) == FirstFailure(p, 1);
      if !Present(p.applicantEmail) || !IsValidEmail(p.applicantEmail.value) then
        assert !Passes(p, Checks[1]);
        Failure("applicant_email invalid")
      else
        assert Passes(p, Checks[1]);
        assert FirstFailure(p, 1) == FirstFailure(p, 2);
        var phone := OnlyDigits(p.applicantPhone.GetOr(""));
        ValidateTail(p, phone)
  }

  /** The checks after the email check, on the normalised phone. */
  function ValidateTail(p: OrderPayload, phone: string): (r: Result<OrderPayload, string>)
    requires phone == NormalisedPhone(p)
    ensures r.Success? <==> FirstFailure(p, 2).None?
    ensures r.Failure? ==> FirstFailure(p, 2).Some? && r.error == Message(Checks[FirstFailure(p, 2).value])
    ensures r.Success? ==> r.value == p.(applicantPhone := Some(phone))
  {
    if !IsValidPhoneJP(phone) then
      assert !Passes(p, Checks[2]);
      Failure("applicant_phone invalid")
    else
      assert Passes(p, Checks[2]);
      assert FirstFailure(p, 2) == FirstFailure(p, 3);
      if !Present(p.catalogId) then
        assert !Passes(p, Checks[3]);
        Failure("catalog_id is required")
      else
        assert Passes(p, Checks[3]);
        assert FirstFailure(p, 3) == FirstFailure(p, 4);
        if !Present(p.recipientName) then
          assert !Passes(p, Checks[4]);
          Failure("recipient_name is required")
        else
          assert Passes(p, Checks[4]);
          assert FirstFailure(p, 4) == FirstFailure(p, 5);
          if !Present(p.recipientAddress) then
            assert !Passes(p, Checks[5]);
            Failure("recipient_address is required")
          else
            assert Passes(p, Checks[5]);
            assert FirstFailure(p, 5) == FirstFailure(p, 6);
            Success(p.(applicantPhone := Some(phone)))
  }

  /** A payload is accepted exactly when it passes every check, and a rejection
      names the first check it fails. */
  lemma ValidateFirstFailureDecides(p: OrderPayload)
    ensures Validate(p).Success? <==> forall i :: 0 <= i < |Checks| ==> Passes(p, Checks[i])
    ensures Validate(p).Failure? ==>
      exists i :: 0 <= i < |Checks| && !Passes(p, Checks[i]) && Validate(p).error == Message(Checks[i])
        && forall j :: 0 <= j < i ==> Passes(p, Checks[j])
  {
    var f := FirstFailure(p, 0);
    if f.Some? {
      assert !Passes(p, Checks[f.value]);
    }
  }

  lemma MessagesDistinct()
    ensures forall j, k :: 0 <= j < k < |Checks| ==> Message(Checks[j]) != Message(Checks[k])
  {
    assert Message(Checks[0])[0] == 'a' && Message(Checks[4])[0] == 'r';
    assert Message(Checks[1])[10] == 'e' && Message(Checks[2])[10] == 'p';
  }

  /** The messages are distinct, so the 400 detail names the one check that decided it. */
  lemma MessageIdentifiesCheck(p: OrderPayload, i: int)
    requires 0 <= i < |Checks|
    ensures Validate(p) == Failure(Message(Checks[i])) ==>
      !Passes(p, Checks[i]) && forall j :: 0 <= j < i ==> Passes(p, Checks[j])
  {
    var r := Validate(p);
    if r != Failure(Message(Checks[i])) { return; }
    ValidateFirstFailureDecides(p);
    var k :| 0 <= k < |Checks| && !Passes(p, Checks[k]) && r.error == Message(Checks[k])
      && forall j :: 0 <= j < k ==> Passes(p, Checks[j]);
    MessagesDistinct();
    assert Message(Checks[k]) == Message(Checks[i]);
  }

  /** A whitespace-only required field is rejected exactly like a missing one. */
  lemma WhitespaceOnlyIsMissing(p: OrderPayload, s: string)
    requires AllSpace(s)
    ensures Validate(p.(applicantName := Some(s))) == Failure("applicant_name is required")
    ensures Present(p.applicantName) && Passes(p, EmailValid) && Passes(p, PhoneValid) ==>
      Validate(p.(catalogId := Some(s))) == Failure("catalog_id is required")
  {
    BlankIffAllSpace(s);
  }

  // ---------------------------------------------------------------------------
  // Sends
  // ---------------------------------------------------------------------------

  /** The POST `sendViaEmailJS` makes: a `Bearer` Authorization header when a
      private key is set, otherwise `user_id` set to the public key in the body
      (absent from the JSON when that key is unset). */
  datatype EmailJsRequest = EmailJsRequest(
    url: string,
    authorization: Option<string>,
    serviceId: Option<string>,
    templateId: string,
    templateParams: OrderPayload,
    userId: Option<string>)

  function BuildRequest(env: Env, templateId: string, params: OrderPayload): (r: EmailJsRequest)
    ensures r.url == EmailJsUrl && r.templateId == templateId && r.templateParams == params
    ensures r.serviceId == Lookup(env, ServiceIdKey)
    ensures IsSet(env, PrivateKeyKey) ==> r.authorization == Some("Bearer " + env[PrivateKeyKey]) && r.userId == None
    ensures !IsSet(env, PrivateKeyKey) ==> r.authorization == None && r.userId == Lookup(env, PublicKeyKey)
  {
    var privateSet := IsSet(env, PrivateKeyKey);
    EmailJsRequest(
      EmailJsUrl,
      if privateSet then Some("Bearer " + env[PrivateKeyKey]) else None,
      Lookup(env, ServiceIdKey),
      templateId,
      params,
      if privateSet then None else Lookup(env, PublicKeyKey))
  }

  /** Whenever a key is available, the request authenticates in exactly one way. */
  lemma ExactlyOneCredential(env: Env, templateId: string, params: OrderPayload)
    requires IsSet(env, PrivateKeyKey) || PublicKeyKey in env
    ensures BuildRequest(env, templateId, params).authorization.Some?
      <==> BuildRequest(env, templateId, params).userId.None?
  {
  }

  /** The service id and both template ids are set. */
  predicate EnvReady(env: Env) {
    IsSet(env, ServiceIdKey) && IsSet(env, AdminTemplateKey) && IsSet(env, ConfirmTemplateKey)
  }

  /** What the route does before any network call: answer at once, or send these requests. */
  datatype Decision =
    | Respond(response: OrderResponse)
    | SendAll(requests: seq<EmailJsRequest>)

  /** Validation first, then the configuration gate, then the two sends. */
  function Decide(p: OrderPayload, env: Env): (d: Decision)
    ensures Validate(p).Failure? ==> d == Respond(BadRequest(Validate(p).error))
    ensures Validate(p).Success? && !EnvReady(env) ==> d == Respond(SendFailed(EnvMissing))
    ensures d.SendAll? <==> Validate(p).Success? && EnvReady(env)
    ensures d.SendAll? ==>
      && |d.requests| == 2
      && d.requests[0].templateId == env[AdminTemplateKey]
      && d.requests[1].templateId == env[ConfirmTemplateKey]
    ensures d.SendAll? ==> d.requests == [
      BuildRequest(env, env[AdminTemplateKey], Validate(p).value),
      BuildRequest(env, env[ConfirmTemplateKey], Validate(p).value)]
  {
    match Validate(p)
    case Failure(m) => Respond(BadRequest(m))
    case Success(q) =>
      if !EnvReady(env) then Respond(SendFailed(EnvMissing))
      else SendAll([BuildRequest(env, env[AdminTemplateKey], q), BuildRequest(env, env[ConfirmTemplateKey], q)])
  }

  /** Both sends carry the same payload: the input with `applicant_phone` reduced
      to its digits and every other field unchanged. */
  lemma SendsCarryNormalisedPayload(p: OrderPayload, env: Env)
    ensures Decide(p, env).SendAll? ==> forall q :: q in Decide(p, env).requests ==>
      && q.templateParams.applicantPhone == Some(OnlyDigits(p.applicantPhone.GetOr("")))
      && AllDigits(q.templateParams.applicantPhone.value)
      && q.templateParams.(applicantPhone := p.applicantPhone) == p
      && q.serviceId == Some(env[ServiceIdKey])
  {
  }

  /** The mail service's answer to one request: an HTTP status and body text, or a
      thrown error whose message the route reports. */
  datatype SendOutcome =
    | Responded(status: nat, text: string)
    | Threw(message: string)

  predicate Delivered(o: SendOutcome) {
    o.Responded? && 200 <= o.status <= 299
  }

  /** The error message a failed send produces: for an HTTP answer it names the
      template and gives the status as decimal text that reads back to the status,
      followed by the body; a thrown error contributes its own message. */
  function FailureDetail(templateId: string, o: SendOutcome): (r: string)
    ensures o.Threw? ==> r == o.message
    ensures o.Responded? ==>
      var head := "EmailJS " + templateId + " failed: ";
      var k := |head| + |NatToString(o.status)|;
      && k + 1 + |o.text| == |r|
      && r[..|head|] == head
      && AllDigits(r[|head|..k])
      && DecimalValue(r[|head|..k]) == o.status
      && r[k] == ' '
      && r[k + 1..] == o.text
  {
    match o
    case Responded(status, text) =>
      var head := "EmailJS " + templateId + " failed: ";
      var r := head + NatToString(status) + " " + text;
      assert r[|head|..|head| + |NatToString(status)|] == NatToString(status);
      r
    case Threw(message) => message
  }

  /** `Promise.all` over the sends: success when every send succeeds, otherwise a
      500 carrying the detail of a failed send. */
  function Complete(requests: seq<EmailJsRequest>, deliver: EmailJsRequest -> SendOutcome): (r: OrderResponse)
    ensures r == OrderOk <==> forall i :: 0 <= i < |requests| ==> Delivered(deliver(requests[i]))
    ensures r != OrderOk ==>
      exists i :: 0 <= i < |requests| && !Delivered(deliver(requests[i]))
        && r == SendFailed(FailureDetail(requests[i].templateId, deliver(requests[i])))
  {
    if |requests| == 0 then OrderOk
    else
      var o := deliver(requests[0]);
      if !Delivered(o) then SendFailed(FailureDetail(requests[0].templateId, o))
      else
        var rest := Complete(requests[1..], deliver);
        assert forall i :: 1 <= i < |requests| ==> requests[i] == requests[1..][i - 1];
        rest
  }

  /** The whole route for one request. */
  function Handle(p: OrderPayload, env: Env, deliver: EmailJsRequest -> SendOutcome): (r: OrderResponse)
    ensures r == OrderOk <==>
      Validate(p).Success? && EnvReady(env)
      && forall q :: q in Decide(p, env).requests ==> Delivered(deliver(q))
    ensures r.OrderError? && r.status == 400 <==> Validate(p).Failure?
  {
    match Decide(p, env)
    case Respond(resp) => resp
    case SendAll(requests) => Complete(requests, deliver)
  }

  /** A request that fails validation is answered 400 whatever the configuration,
      and a request that gets an immediate answer sends nothing: the outcome does
      not depend on the mail service. */
  lemma NoSendBeforeGate(p: OrderPayload, env: Env, env': Env, deliver: EmailJsRequest -> SendOutcome, deliver': EmailJsRequest -> SendOutcome)
    requires Validate(p).Failure? || !EnvReady(env)
    ensures Decide(p, env).Respond?
    ensures Handle(p, env, deliver) == Handle(p, env, deliver')
    ensures Validate(p).Failure? ==> Handle(p, env, deliver) == Handle(p, env', deliver')
  {
  }
}

=== FILE: processenv.dfy ===
/**
 * `process.env` as read by the two relay routes: a map from variable name to
 * value. JavaScript reads an unset variable as `undefined`.
 */
module ProcessEnv {
  import opened Wrappers

  type Env = map<string, string>

  /** `process.env[key]`: the value, or None for `undefined`. */
  function Lookup(env: Env, key: string): Option<string> {
    if key in env then Some(env[key]) else None
  }

  /** `process.env[key]` is truthy: set, and not the empty string. */
  predicate IsSet(env: Env, key: string) {
    key in env && env[key] != ""
  }
}

=== FILE: queries.dfy ===
/**
 * The normalisation boundary of the catalog reader: the `categories` field is
 * turned into a list, and each CMS record into a `Product`. The CMS request
 * itself is not modelled; its `contents` list is the input.
 */
module Queries {
  import opened Wrappers
  import opened CatalogTypes

  const Placeholder: string := "/images/placeholder.jpg"

  /** `Array.isArray(v)`. */
  predicate IsCategoryArray(v: CategoryField) {
    v.Array?
  }

  /** `!!v && typeof v === "object" && "id" in v`: a non-null object with an `id` key. */
  predicate IsCategory(v: CategoryField) {
    v.Single?
  }

  /** The field as a list: an array as is, a category object as a one-element
      list, anything else as the empty list. */
  function ToCategoryArray(v: CategoryField): (r: seq<Category>)
    ensures IsCategoryArray(v) ==> r == v.items
    ensures IsCategory(v) ==> r == [v.c]
    ensures !IsCategoryArray(v) && !IsCategory(v) ==> r == []
  {
    if IsCategoryArray(v) then v.items
    else if IsCategory(v) then [v.c]
    else []
  }

  /** Normalising is a projection: a normalised list, fed back in, comes out unchanged. */
  lemma ToCategoryArrayIdempotent(v: CategoryField)
    ensures ToCategoryArray(Array(ToCategoryArray(v))) == ToCategoryArray(v)
  {
  }

  /** The mapping from a CMS record to a product: the catalog number is the id
      unless it is empty, the image falls back to a placeholder, and everything
      else is copied. */
  function ToProduct(c: CatalogItem): (p: Product)
    ensures c.catalogId.Some? && c.catalogId.value != "" ==> p.id == c.catalogId.value
    ensures c.catalogId.None? || c.catalogId.value == "" ==> p.id == c.id
    ensures p.image != ""
    ensures p.image != Placeholder ==> c.image.Some? && c.image.value.url == Some(p.image)
    ensures c.image.Some? && c.image.value.url.Some? && c.image.value.url.value != "" ==> p.image == c.image.value.url.value
    ensures p.name == c.name && p.price == c.price && p.description == c.description
    ensures p.categories == Some(ToCategoryArray(c.categories))
  {
    Product(
      if c.catalogId.Some? && c.catalogId.value != "" then c.catalogId.value else c.id,
      c.name,
      c.price,
      if c.image.Some? && c.image.value.url.Some? && c.image.value.url.value != "" then c.image.value.url.value else Placeholder,
      c.description,
      Some(ToCategoryArray(c.categories)))
  }

  /** `(res.contents ?? []).map(...)`: one product per record, in the same order. */
  function MapCatalog(contents: Option<seq<CatalogItem>>): (ps: seq<Product>)
    ensures contents.None? ==> ps == []
    ensures contents.Some? ==> |ps| == |contents.value|
    ensures contents.Some? ==> forall i :: 0 <= i < |ps| ==> ps[i] == ToProduct(contents.value[i])
  {
    match contents
    case None => []
    case Some(items) => MapItems(items)
  }

  function MapItems(items: seq<CatalogItem>): (ps: seq<Product>)
    ensures |ps| == |items|
    ensures forall i :: 0 <= i < |ps| ==> ps[i] == ToProduct(items[i])
  {
    if |items| == 0 then []
    else [ToProduct(items[0])] + MapItems(items[1..])
  }
}

=== FILE: slideview.dfy ===
/** What both carousels share: the events that move the index, the run of a
    sequence of events, and the per-slide class lists they render (one class
    for the current slide or its dot, another for every other one). */
module SlideView {

  /** What changes a carousel's index: a timer tick, or a click on dot `i`. */
  datatype Event = Tick | DotClick(i: int)

  /** A click can only land on one of the `n` rendered dots. */
  predicate OnRenderedDot(n: nat, e: Event) {
    e.DotClick? ==> 0 <= e.i < n
  }

  predicate Clickable(n: nat, events: seq<Event>) {
    forall k :: 0 <= k < |events| ==> OnRenderedDot(n, events[k])
  }

  /** `step` never moves an index in range out of range. */
  ghost predicate KeepsInRange(n: nat, step: (int, Event) -> int) {
    forall i, e :: 0 <= i < n && OnRenderedDot(n, e) ==> 0 <= step(i, e) < n
  }

  /** The index after a sequence of events, each applied by the carousel's `step`. */
  function Run(n: nat, step: (int, Event) -> int, idx: int, events: seq<Event>): (r: int)
    requires KeepsInRange(n, step)
    ensures 0 <= idx < n && Clickable(n, events) ==> 0 <= r < n
    decreases |events|
  {
    if |events| == 0 then idx else Run(n, step, step(idx, events[0]), events[1..])
  }

  function Marked(n: nat, current: int, on: string, off: string): (r: seq<string>)
    requires on != off
    ensures |r| == n
    ensures forall i :: 0 <= i < n ==> (r[i] == on <==> i == current)
    ensures forall i :: 0 <= i < n ==> r[i] == on || r[i] == off
  {
    seq(n, i => if i == current then on else off)
  }

  /** With the current index in range, exactly one entry is marked. */
  lemma ExactlyOneMarked(n: nat, current: int, on: string, off: string)
    requires on != off && 0 <= current < n
    ensures (set i | 0 <= i < n && Marked(n, current, on, off)[i] == on) == {current}
  {
    var r := Marked(n, current, on, off);
    assert r[current] == on;
  }
}

=== FILE: wrappers.dfy ===
/** Option and Result datatypes shared by the model of every source file. */
module Wrappers {

  /** A JavaScript value that may be `undefined`/`null` (None) or present (Some). */
  datatype Option<+T> = None | Some(value: T) {

    /** The value, or `default` when absent: the `??` operator. */
    function GetOr(default: T): T {
      match this
      case Some(v) => v
      case None => default
    }
  }

  /** The outcome of a validator: the normalised value or an error message. */
  datatype Result<+R, +E> = Success(value: R) | Failure(error: E)
}
